=== FILE: README.md ===
# Power consumption monitor: process picker and tracker, modelled in Dafny

The program lists the running Windows processes, lets the operator pick one
with the arrow keys and a live search, and then estimates that process's power
draw every 100 ms from its CPU share and the CPU's rated TDP, printing the
current and the average draw.

This project models the logic of `index.js`:

- `navigator.dfy` — the keypress handler of `main` as a pure transition
  `Step(pl, state, key)` over a fixed listing `pl`. The state is the typed query
  (the array of pushed entries), the last filter result, the cursor row
  `selectedIndex` and the row a confirm would hand over, `selectedOption`.
  Every key yields the next state plus its effect: nothing, one repaint (the
  arguments of one `printList` call), or the hand-over on `return`. `Run` feeds
  a key sequence and stops at the first confirm.
- `list_model.dfy` — the three pinned rows, the case-insensitive substring
  filter and the "No results found." sentinel.
- `render.dfy` — `printList` as a pure function returning the lines it writes.
- `session.dfy` — `getInfo` (the first two space-separated words of the
  confirmed row) and the link between a repaint and the state it shows.
- `tracker.dfy` — the power formula, the running mean of the power history,
  and the tracking loop as a function of the sequence of CPU samples.
- `text.dfy` — ASCII lower-casing, `includes`, `split(" ")`, `join("")` and
  decimal rendering; `options.dfy` — the optional value that stands for
  JavaScript's `undefined`.
- `scenarios.dfy` — runs of the picker over any listing: typing letters,
  typing a letter no row holds, typing and erasing everything. One of them
  asks for two particular unpinned rows, `chrome.exe 111` and `svchost.exe 333`.

Behaviour of the code worth knowing, all modelled as the code behaves:

- `up` while searching moves the cursor but leaves `selectedOption` stale.
- The first `selectedOption` is `processList[0]` while the cursor marks row 3.
- `backspace` on a query longer than one entry refilters the whole listing,
  pinned rows included. Typing filters only the rows after the pinned ones.
- `down` also stops at the listing's last row while searching.
- A confirm on the sentinel row is handed over as the process "No" with id
  "results" (`Session.ConfirmOnSentinel`).
- Typing a key and erasing it does not restore the active view when a pinned
  row matches the query (`Navigator.TypeThenEraseListsPinnedRow`). It does when
  none matches (`Navigator.TypeThenEraseRestoresView`).
- Typing "ch" keeps every unpinned row containing "ch", `svchost.exe 333` as
  well as `chrome.exe 111` (`Scenarios.TypingChKeepsSvchost`).
- Any key named `space` is accepted as search text, whatever text it carries.
- The 65 W TDP fallback never reaches the caller: that branch never resolves
  its promise.

## Model

| member | source | states |
|---|---|---|
| `ListModel.Pinned` | index.js:45 | a listing of at least three rows has exactly three pinned rows, and the pinned rows followed by the unpinned ones give back the listing |
| `ListModel.Unpinned` | index.js:129-130 | `slice(3)` is the listing's suffix after the three pinned rows, empty when there are at most three rows |
| `ListModel.Matches` | index.js:131 | a row matches when its lower-cased text includes the joined query (definition; `Text.ContainsIffOccurs` gives its meaning) |
| `ListModel.Filter` | index.js:129-131 | a row is in the filter result exactly when it is in the input and its lower-cased text contains the query |
| `ListModel.FilterAppend` | index.js:129-131 | filtering distributes over concatenation, so matches keep their listing order |
| `ListModel.FilterKeepsAllMatching` | index.js:129-131 | a list whose every row matches filters to itself |
| `ListModel.FilterDropsAllUnmatched` | index.js:129-131 | a list with no matching row filters to nothing |
| `ListModel.FilterOne` | index.js:131 | a single row is kept exactly when it matches |
| `ListModel.OrSentinel` | index.js:133-135 | the filter result is the matches when there are any and exactly `["No results found."]` otherwise, so it is never empty |
| `ListModel.ActiveView` | index.js:113 | (definition) the listing while browsing, the pinned rows followed by the filter result while searching; `Navigator.Step`'s repaint clause and `Navigator.StepPreservesInv` state what it is used for |
| `Navigator.Classify` | index.js:38-125 | `up`, `down`, `return`, `backspace` are recognised by key name alone; other keys type their lower-cased text when it is one letter or digit or the key is `space`, and are ignored otherwise |
| `Navigator.InitialFrame` | index.js:27-32 | the first repaint shows the whole listing with the cursor on row 3 and no search text |
| `Navigator.Init` | index.js:15-29 | (definition) empty query, cursor on row 3, the listing's first row as selection; `Navigator.InitEstablishesInv` and `Navigator.InitialFrame` state its meaning |
| `Navigator.Refiltered` | index.js:129-140 | a refilter keeps the query, puts the cursor on row 3, leaves a non-empty filter result and selects its first row |
| `Navigator.Run` | index.js:35 | keys are fed one by one, and a confirm ends the run handing over the selection of the state it was pressed in |
| `Navigator.RunStopsAtConfirm` | index.js:74-88 | at the first `return` the run stops: the keys before it leave the picker navigating in a state `t`, and the run confirms in `t` handing over `t`'s selection, whatever keys follow |
| `Navigator.Step` | index.js:35-145 | a silent key changes nothing; a hand-over happens exactly on `return`, which changes nothing and hands over `selectedOption`; every repaint shows the new active view, cursor row and joined query; the query grows by one entry, shrinks by its last entry, or stays |
| `Navigator.InitEstablishesInv` | index.js:28-29 | on a listing of at least four rows the start state has the cursor on an unpinned row of the view |
| `Navigator.StepPreservesInv` | index.js:39-143 | every key keeps the cursor within rows 3 to the view's last row and keeps the filter result non-empty while searching |
| `Navigator.RunPreservesInv` | index.js:35-145 | any key sequence keeps that invariant |
| `Navigator.UpMovesOneRow` | index.js:39-53 | `up` is silent at row 3 or above and otherwise moves up exactly one row; it updates the selection while browsing and leaves it unchanged while searching |
| `Navigator.DownMovesOneRow` | index.js:55-72 | `down` is silent at the last reachable row and otherwise moves down exactly one row, selecting the row it lands on |
| `Navigator.DownStopsAtViewEnd` | index.js:56-58 | while browsing, and while the filter result fits the listing, the last reachable row is the active view's last row |
| `Navigator.IgnoredKeyIsSilent` | index.js:123-125 | a key that is neither named nor searchable leaves the state unchanged and repaints nothing |
| `Navigator.RefilteredFor` | index.js:129-140 | a refilter yields all matching rows in order, or the sentinel alone when no row matches |
| `Navigator.TypingRefilters` | index.js:121-143 | a typed key appends its lower-cased text, refilters the unpinned rows for the joined query, and puts the cursor on row 3 and the selection on the first result |
| `Navigator.EraseShortQuery` | index.js:91-101 | `backspace` is silent on an empty query; on a one-entry query it returns to the full listing, cursor on row 3, selection on row 3, filter result untouched |
| `Navigator.EraseLongQuery` | index.js:103-118 | `backspace` on a longer query drops exactly the last entry, refilters the whole listing including pinned rows, and resets cursor and selection to the first result |
| `Navigator.TypeThenEraseRestoresQuery` | index.js:103-131 | typing a key then erasing it restores the query exactly and puts the cursor on row 3 |
| `Navigator.TypeThenEraseRestoresView` | index.js:103-137 | typing then erasing restores the active view of a state reached by typing, provided no pinned row matches the query |
| `Navigator.TypeThenEraseListsPinnedRow` | index.js:105-107 | a pinned row that matches the query is in the filter result after typing then erasing, so the view changes when it was not there before |
| `Navigator.EraseAllRestoresListing` | index.js:91-118 | erasing the whole query, after any filtering, returns to the unfiltered listing with cursor and selection on row 3 |
| `Navigator.RepaintMarksSelection` | index.js:55-140 | after any repainting key other than `up` while searching, the selection is the row the repaint marks |
| `Navigator.UpWhileSearchingKeepsStaleSelection` | index.js:42-48 | after `up` while searching, the selection differs from the marked row whenever the two rows differ |
| `Render.Header` | index.js:164-172 | (definition) the seven lines written at 164-172: title, blank line, instructions, search line and the first three rows; the ensures fixes the count, and `Render.PrintListLayout` and `Session.RepaintShows` state the pinned rows and the search line |
| `Render.Rows` | index.js:182-203 | the window loop writes one line per row from `lo` to `hi`, the cursor row with `> ` and the others with two spaces |
| `Render.PrintList` | index.js:162-214 | both branches of `printList` as written (definition; `Render.PrintListIsWindow` and `Render.PrintListLayout` state what it shows) |
| `Render.WindowBounds` | index.js:174-203 | the window holds between 1 and 5 rows, starts at row 3 or later and contains the cursor row; the tail branch ends it at the last row and the scrolling branch starts it at the cursor with rows left below |
| `Render.PrintListIsWindow` | index.js:174-213 | both branches of `printList` show one window of rows starting at `min(cursor, length - k)` with `k = min(5, length - 3)` |
| `Render.PrintListLayout` | index.js:162-213 | with the cursor on an unpinned row: seven head lines whose last three are the listing's first three rows, between 1 and 5 consecutive rows that contain the cursor row, and a trailer line that is END OF LIST when the window reaches the last row and otherwise the count of rows below |
| `Render.PrintListMarksOneRow` | index.js:182-203 | exactly one window row starts with `>`, and it is `> ` followed by the cursor row |
| `Render.PrintListTrailer` | index.js:190-213 | the trailer is END OF LIST exactly when the window's last row is the list's last row; otherwise it reports how many rows follow the window |
| `Text.ContainsIffOccurs` | index.js:131 | `includes` holds exactly when the query occurs at some position of the text |
| `Text.AbsentCharNotContained` | index.js:131 | a text lacking one of the query's characters does not include the query |
| `Text.ContainsInMiddle` | index.js:131 | a text includes any string that sits inside it |
| `Text.LowerChar` | index.js:123 | `A`–`Z` map to `a`–`z` at the same offset, every other character is unchanged, and no result is an upper-case letter |
| `Text.Lower` | index.js:123 | (definition) `toLowerCase` as `LowerChar` applied to each character; `Text.LowerAppend` states that it works part by part |
| `Text.Contains` | index.js:131 | `includes` as a recursive search for a prefix occurrence (definition; `Text.ContainsIffOccurs` relates it to positions) |
| `Text.Concat` | index.js:131 | `join("")` of no entries is the empty string; `Text.ConcatAppend` shows that each pushed entry extends it |
| `Text.Split` | index.js:218 | `split(" ")` always yields at least one piece; `Text.SplitJoin` and `Text.JoinSplit` are its round trips |
| `Text.Words` | index.js:218 | `split(" ").filter(e => e !== "")` (definition; `Text.WordsAreSpaceFree` and `Text.WordsOfJoin` state its meaning) |
| `Text.LowerAppend` | index.js:131 | lower-casing a concatenation lower-cases each part |
| `Text.SplitJoin` | index.js:218 | `split(" ")` pieces hold no space and join back to the input |
| `Text.JoinSplit` | index.js:218 | space-free pieces joined by spaces split back into the same pieces |
| `Text.WordsAreSpaceFree` | index.js:218 | after dropping empty pieces every word is non-empty and space-free |
| `Text.WordsOfJoin` | index.js:218 | non-empty space-free words joined by single spaces give back the same words |
| `Text.WordsAroundSpaces` | index.js:218 | a run of spaces separates the words on its two sides |
| `Text.NatToStringRoundTrip` | index.js:207 | the decimal count of rows below reads back as that count |
| `Session.GetInfo` | index.js:216-224 | the name is the record's first word and the pid its second, each defined exactly when the record has that many words, both non-empty and space-free |
| `Session.HandOver` | index.js:74-88 | an undefined selection hands over nothing; otherwise the name handed over is the selected row's first word and the pid its second, each undefined when the row has fewer words |
| `Session.GetInfoOfRecord` | index.js:218-222 | a record of name, spaces, id and space-led columns yields that name and id |
| `Session.GetInfoKeepsTabs` | index.js:218 | a tab does not separate words |
| `Session.ConfirmOnSentinel` | index.js:78-84 | confirming on the sentinel starts tracking process "No" with id "results" |
| `Session.ConfirmBeforeAnyKey` | index.js:28-32 | `return` as the first key hands over the listing's first row, while the first repaint marks row 3 |
| `Session.FirstRepaintMarksRowThree` | index.js:28-32 | the first repaint's first window line is `> ` followed by row 3 |
| `Session.ScreenShowsState` | index.js:168-203 | after a repainting key the search line shows the joined query and the one marked row is the cursor row of the active view |
| `Session.RepaintShows` | index.js:168-203 | with the cursor on an unpinned row, a repaint's fourth line shows the search text and the cursor row is printed with the `>` marker |
| `Tracker.EstimatePower` | index.js:249-253 | for a non-negative TDP and a CPU share between 0 and 100 %, the power lies between 0 W and the TDP |
| `Tracker.PowerAtIdleAndFullLoad` | index.js:249-253 | the estimate is 0 W at 0 % CPU and equals the TDP at 100 % |
| `Tracker.PowerMonotone` | index.js:249-253 | for a non-negative TDP more CPU never gives less power |
| `Tracker.PowerExample` | index.js:250 | 50 % of a 65 W CPU is 32.5 W |
| `Tracker.Sum` | index.js:289-290 | `reduce((a, b) => a + b, 0)` as a left fold (definition; `Tracker.SumBounds` bounds it) |
| `Tracker.Mean` | index.js:289-291 | the average taken `|xs|` times gives back the sum of the history |
| `Tracker.SumBounds` | index.js:289-290 | samples between two bounds sum to between the bounds times the sample count |
| `Tracker.MeanBounds` | index.js:289-291 | the average of samples between two bounds lies between those bounds |
| `Tracker.MeanBetweenMinAndMax` | index.js:289-291 | the average lies between the smallest and the largest sample |
| `Tracker.MeanExample` | index.js:289-291 | the average of 10, 20 and 30 is 20 |
| `Tracker.AccumulateIsSum` | index.js:286-291 | a running total and count equal the history's sum and length |
| `Tracker.AccumulatorGivesMean` | index.js:286-291 | the running total over the count equals the mean of the whole history |
| `Tracker.Track` | index.js:277-308 | the run reports "Process not found." exactly when some sample is a rejected one (`None`), gives at most one reading per tick, and one reading per tick when none fails |
| `Tracker.TrackStopsAtFirstFailure` | index.js:277-308 | a failed sample ends the run reporting "Process not found.", with one reading per earlier tick and none after |
| `Tracker.TrackAllSucceed` | index.js:277-308 | with no failed sample every tick gives exactly one reading |
| `Tracker.TrackReading` | index.js:280-291 | reading j shows sample j, the power for it, and the mean of the power history up to and including it |
| `Scenarios.LetterIsTyped` | index.js:123-127 | a lower-case letter key types that letter |
| `Scenarios.LetterExtendsQuery` | index.js:121-143 | a letter key repaints and appends exactly that letter to the query |
| `Scenarios.LetterKeepsMatch` | index.js:127-131 | a typed letter keeps every unpinned row that matches the extended query |
| `Scenarios.TwoLettersKeepMatch` | index.js:121-131 | two typed letters keep every unpinned row containing both letters in a row |
| `Scenarios.TypingChKeepsSvchost` | index.js:129-131 | typing "ch" keeps both `chrome.exe 111` and `svchost.exe 333` |
| `Scenarios.UnmatchedLetterShowsSentinel` | index.js:129-140 | typing a letter that no unpinned row holds leaves only the sentinel, under the cursor and as the selection |
| `Scenarios.TypeThenEraseAll` | index.js:91-131 | typing any letters and erasing them all returns to the unfiltered listing with the cursor on row 3 |
| `Scenarios.TypedLength` | index.js:127 | each typed key lengthens the query by one entry and never confirms |
| `Scenarios.RunConcat` | index.js:35 | feeding two key sequences in turn is feeding their concatenation, up to a confirm |

## Left out

- Listing the processes (`getProcessList`, `tasklist`, index.js:148-160): shell I/O. The listing is a parameter.
- Sampling CPU usage (`getProcessCpuUsage`, `wmic`, index.js:226-247): shell I/O over unseen command output. Each tick's sample is a parameter. `None` stands for a sample promise that rejects and so reaches the catch at index.js:304-306. The sampler's own throw after `reject` (index.js:231-237, `array[1].split` on output without a second line) is not modelled: it happens inside the exec callback, outside the promise, and would end the process without the "Process not found." line.
- Overlapping ticks: the `setInterval` callback is asynchronous, so ticks can overlap. The samples are taken in the order their promises complete, and each tick is modelled as running to completion before the next one.
- The division by half the core count and the two-decimal `toFixed` rounding (index.js:10, 241, 294-303): floating-point formatting. Power and averages are exact reals.
- The TDP lookup (`searchTDP`, index.js:311-341): a web search. The TDP is a parameter.
- Terminal output (`console.clear`, `process.stdout.write`) and `readline` set-up: repaints are returned as lines, keys arrive as a sequence.
- The 100 ms timer, `process.uptime` (the elapsed-time column) and `process.exit`: timing plumbing. The loop is a function of its sample sequence.
- The asynchronous hand-over to `trackProcess` after `return`: `Run` assumes each input chunk holds one key, so that no key is handled after the one that confirms; a pasted chunk holding several keys is not modelled.
- Lower-casing beyond ASCII: `toLowerCase` maps the full Unicode range, the model maps `A`–`Z` only.
- `Navigator.DownStopsAtViewEnd`: stated only while the filter result has at most `|pl| - 3` rows. A backspace refilter over the whole listing can return more rows than that (when pinned rows match as well as most unpinned ones); `down` then stops at row `|pl| - 1`, before the view's last row (this is `Navigator.DownMovesOneRow`'s bound).

=== FILE: list_model.dfy ===
/**
  The filterable process list: the first three rows of the listing are pinned
  (the listing's header), the rest are filtered by a case-insensitive
  substring match, and an empty match set is replaced by a sentinel row.
 */
module ListModel {
  import opened Text

  /** Rows at the top of the listing that are always shown unfiltered. */
  const PinnedCount := 3

  /** The row shown in place of an empty match set. */
  const NoResults := "No results found."

  function Min(a: int, b: int): int { if a <= b then a else b }

  function Max(a: int, b: int): int { if a >= b then a else b }

  /** `processList.slice(0, 3)`. */
  function Pinned(pl: seq<string>): (r: seq<string>)
    ensures |pl| >= PinnedCount ==> |r| == PinnedCount
    ensures r + Unpinned(pl) == pl
  {
    pl[..Min(PinnedCount, |pl|)]
  }

  /** `processList.slice(3)`. */
  function Unpinned(pl: seq<string>): (r: seq<string>)
    ensures |pl| <= PinnedCount ==> r == []
    ensures |pl| >= PinnedCount ==> |r| == |pl| - PinnedCount
    ensures forall i :: 0 <= i < |r| ==> r[i] == pl[|pl| - |r| + i]
  {
    pl[Min(PinnedCount, |pl|)..]
  }

  /** `item.toLowerCase().includes(query)`. */
  predicate Matches(item: string, query: string) {
    Contains(Lower(item), query)
  }

  /** The entries of `items` that match `query`, in their original order. */
  function Filter(items: seq<string>, query: string): (r: seq<string>)
    ensures forall x :: x in r <==> x in items && Matches(x, query)
    ensures |r| <= |items|
  {
    if |items| == 0 then []
    else (if Matches(items[0], query) then [items[0]] else []) + Filter(items[1..], query)
  }

  /** Filtering distributes over concatenation, so it keeps the relative order of the matches. */
  lemma {:induction false} FilterAppend(a: seq<string>, b: seq<string>, query: string)
    ensures Filter(a + b, query) == Filter(a, query) + Filter(b, query)
    decreases |a|
  {
    if |a| > 0 {
      assert (a + b)[0] == a[0];
      assert (a + b)[1..] == a[1..] + b;
      FilterAppend(a[1..], b, query);
      var head := if Matches(a[0], query) then [a[0]] else [];
      assert Filter(a, query) == head + Filter(a[1..], query);
      assert Filter(a + b, query) == head + Filter((a + b)[1..], query);
    } else {
      assert a + b == b;
    }
  }

  /** A one-entry list keeps its entry exactly when it matches. */
  lemma FilterOne(x: string, query: string)
    ensures Filter([x], query) == if Matches(x, query) then [x] else []
  {
    assert [x][1..] == [];
  }

  /** A list whose every entry matches is kept whole. */
  lemma {:induction false} FilterKeepsAllMatching(items: seq<string>, query: string)
    requires forall i :: 0 <= i < |items| ==> Matches(items[i], query)
    ensures Filter(items, query) == items
    decreases |items|
  {
    if |items| > 0 {
      FilterKeepsAllMatching(items[1..], query);
    }
  }

  /** A list with no matching entry filters to nothing. */
  lemma {:induction false} FilterDropsAllUnmatched(items: seq<string>, query: string)
    requires forall x :: x in items ==> !Matches(x, query)
    ensures Filter(items, query) == []
    decreases |items|
  {
    if |items| > 0 {
      assert items[0] in items;
      assert forall x :: x in items[1..] ==> x in items;
      FilterDropsAllUnmatched(items[1..], query);
    }
  }

  /** `filteredItems` after a refilter: the matches, or the sentinel row alone when there are none. */
  function OrSentinel(matches: seq<string>): (r: seq<string>)
    ensures |r| >= 1
    ensures |matches| > 0 ==> r == matches
    ensures |matches| == 0 ==> r == [NoResults]
  {
    if |matches| == 0 then [NoResults] else matches
  }

  /** The rows the cursor moves over: the whole listing while browsing, the pinned rows and the filter result while searching. */
  function ActiveView(pl: seq<string>, query: seq<string>, filtered: seq<string>): seq<string>
  {
    if |query| == 0 then pl else Pinned(pl) + filtered
  }
}

=== FILE: navigator.dfy ===
/**
  The keypress handler of the process picker as a pure transition function.
  The listing `pl` is fixed for the whole session; the state is the typed
  query, the last filter result, the cursor row and the row a confirm would
  track.
 */
module Navigator {
  import opened Options
  import opened Text
  import opened ListModel

  /**
    One keypress as the terminal delivers it: the typed text and the key's name.
    A key without text (an arrow key) has `text == ""`, and a key without a
    name (punctuation) has `name == ""`; the handler treats JavaScript's
    `undefined` exactly like the empty string in both places.
   */
  datatype Key = Key(text: string, name: string)

  /** What the handler does with a key, decided by the key alone. */
  datatype Action = MoveUp | MoveDown | Confirm | Erase | Type(entry: string) | Ignore

  /**
    `query` holds the pushed entries (joined with "" when used), `filtered` the
    last filter result, `selectedIndex` the cursor row and `selectedOption`
    the row a confirm hands over.
   */
  datatype State = State(query: seq<string>, filtered: seq<string>, selectedIndex: int, selectedOption: Option<string>)

  /** The arguments of one repaint: the rows, the cursor row, the search text ("" for none). */
  datatype Frame = Frame(list: seq<string>, selectedIndex: int, search: string)

  /** What a key causes besides the state change: nothing, one repaint, or the hand-over of a row. */
  datatype Effect = Silent | Redraw(frame: Frame) | Handoff(choice: Option<string>)

  datatype Reaction = Reaction(next: State, effect: Effect)

  /** The navigation outcome of a key sequence: still picking, or confirmed with the hand-over. */
  datatype Outcome = Navigating(state: State) | Confirmed(state: State, choice: Option<string>)

  /** A single lower-case ASCII letter or digit, the only text a search key may carry (besides space). */
  predicate IsSearchChar(input: string) {
    |input| == 1 && ('a' <= input[0] <= 'z' || '0' <= input[0] <= '9')
  }

  /** The key-to-action mapping: the four named keys, then searchable text or the space key, then everything else. */
  function Classify(k: Key): (a: Action)
    ensures a == MoveUp <==> k.name == "up"
    ensures a == MoveDown <==> k.name == "down"
    ensures a == Confirm <==> k.name == "return"
    ensures a == Erase <==> k.name == "backspace"
    ensures a.Type? ==> a.entry == Lower(k.text) && (IsSearchChar(a.entry) || k.name == "space")
    ensures a == Ignore ==> !IsSearchChar(Lower(k.text)) && k.name != "space"
  {
    if k.name == "up" then MoveUp
    else if k.name == "down" then MoveDown
    else if k.name == "return" then Confirm
    else if k.name == "backspace" then Erase
    else
      var input := Lower(k.text);
      if IsSearchChar(input) || k.name == "space" then Type(input) else Ignore
  }

  /** The rows the cursor moves over in state `s`. */
  function View(pl: seq<string>, s: State): seq<string> {
    ActiveView(pl, s.query, s.filtered)
  }

  /** The state before the first key: empty query, cursor on the first unpinned row, selection on the listing's first row. */
  function Init(pl: seq<string>): State {
    State([], [], PinnedCount, At(pl, 0))
  }

  /** The repaint done at start-up, before any key. */
  function InitialFrame(pl: seq<string>): (f: Frame)
    ensures f == Frame(View(pl, Init(pl)), Init(pl).selectedIndex, Concat(Init(pl).query))
  {
    Frame(pl, PinnedCount, "")
  }

  /** The state after refiltering for the query `q` over `items`. */
  function Refiltered(pl: seq<string>, q: seq<string>, items: seq<string>): (s: State)
    ensures s.query == q && s.selectedIndex == PinnedCount && |s.filtered| >= 1
    ensures |pl| >= PinnedCount ==> s.selectedOption == Some(s.filtered[0])
  {
    var filtered := OrSentinel(Filter(items, Concat(q)));
    State(q, filtered, PinnedCount, At(Pinned(pl) + filtered, PinnedCount))
  }

  /** One keypress. */
  function Step(pl: seq<string>, s: State, k: Key): (r: Reaction)
    ensures r.effect.Silent? ==> r.next == s
    ensures r.effect.Handoff? <==> Classify(k) == Confirm
    ensures r.effect.Handoff? ==> r.next == s && r.effect.choice == s.selectedOption
    ensures r.effect.Redraw? ==>
      r.effect.frame == Frame(View(pl, r.next), r.next.selectedIndex, Concat(r.next.query))
    ensures || r.next.query == s.query
            || (|s.query| > 0 && r.next.query == s.query[..|s.query| - 1])
            || (|r.next.query| == |s.query| + 1 && r.next.query[..|s.query|] == s.query)
  {
    match Classify(k)
    case MoveUp =>
      if s.selectedIndex <= PinnedCount then Reaction(s, Silent)
      else
        var i := Max(s.selectedIndex - 1, 0);
        if |s.query| > 0 then
          // the selection is not updated here
          Reaction(s.(selectedIndex := i), Redraw(Frame(Pinned(pl) + s.filtered, i, Concat(s.query))))
        else
          Reaction(s.(selectedIndex := i, selectedOption := At(pl, i)), Redraw(Frame(pl, i, "")))
    case MoveDown =>
      if s.selectedIndex >= |pl| - 1 then Reaction(s, Silent)
      else if |s.query| > 0 && s.selectedIndex >= |s.filtered| + PinnedCount - 1 then Reaction(s, Silent)
      else
        var i := Min(s.selectedIndex + 1, |pl| - 1);
        if |s.query| > 0 then
          var view := Pinned(pl) + s.filtered;
          Reaction(s.(selectedIndex := i, selectedOption := At(view, i)), Redraw(Frame(view, i, Concat(s.query))))
        else
          Reaction(s.(selectedIndex := i, selectedOption := At(pl, i)), Redraw(Frame(pl, i, "")))
    case Confirm =>
      Reaction(s, Handoff(s.selectedOption))
    case Erase =>
      if |s.query| == 0 then Reaction(s, Silent)
      else if |s.query| == 1 then
        // `filtered` is left as it was
        var next := s.(query := [], selectedIndex := PinnedCount, selectedOption := At(pl, PinnedCount));
        Reaction(next, Redraw(Frame(pl, PinnedCount, "")))
      else
        // the refilter runs over the whole listing, pinned rows included
        var next := Refiltered(pl, s.query[..|s.query| - 1], pl);
        Reaction(next, Redraw(Frame(Pinned(pl) + next.filtered, PinnedCount, Concat(next.query))))
    case Type(entry) =>
      var next := Refiltered(pl, s.query + [entry], Unpinned(pl));
      Reaction(next, Redraw(Frame(Pinned(pl) + next.filtered, PinnedCount, Concat(next.query))))
    case Ignore =>
      Reaction(s, Silent)
  }

  /** Feeds `keys` to the handler one at a time; a confirm ends navigation and later keys are not read. */
  function Run(pl: seq<string>, s: State, keys: seq<Key>): (o: Outcome)
    ensures o.Confirmed? ==> o.choice == o.state.selectedOption
    decreases |keys|
  {
    if |keys| == 0 then Navigating(s)
    else
      var r := Step(pl, s, keys[0]);
      if r.effect.Handoff? then Confirmed(s, r.effect.choice)
      else Run(pl, r.next, keys[1..])
  }

  /**
    The first `return` ends the run: the keys before it leave the picker
    navigating in some state `t`, and the run confirms in `t`, handing over
    `t`'s selection; no later key is read.
   */
  lemma {:induction false} RunStopsAtConfirm(pl: seq<string>, s: State, keys: seq<Key>, i: nat)
    requires i < |keys| && Classify(keys[i]) == Confirm
    requires forall j :: 0 <= j < i ==> Classify(keys[j]) != Confirm
    ensures Run(pl, s, keys[..i]).Navigating?
    ensures var t := Run(pl, s, keys[..i]).state;
      Run(pl, s, keys) == Confirmed(t, t.selectedOption)
    decreases i
  {
    if i == 0 {
      assert keys[..0] == [];
    } else {
      var rest := keys[1..];
      assert forall j :: 0 <= j < i - 1 ==> rest[j] == keys[j + 1];
      RunStopsAtConfirm(pl, Step(pl, s, keys[0]).next, rest, i - 1);
      RunFirst(pl, s, keys);
      var before := keys[..i];
      assert before[0] == keys[0] && before[1..] == rest[..i - 1];
      RunFirst(pl, s, before);
    }
  }

  /** A first key other than `return` is handled and the run goes on with the rest. */
  lemma RunFirst(pl: seq<string>, s: State, keys: seq<Key>)
    requires |keys| > 0 && Classify(keys[0]) != Confirm
    ensures Run(pl, s, keys) == Run(pl, Step(pl, s, keys[0]).next, keys[1..])
  {
  }

  /** The cursor lies on an unpinned row of the active view, and a non-empty query has a non-empty filter result. */
  predicate Inv(pl: seq<string>, s: State) {
    && PinnedCount <= s.selectedIndex < |View(pl, s)|
    && (|s.query| > 0 ==> |s.filtered| > 0)
  }

  lemma InitEstablishesInv(pl: seq<string>)
    requires |pl| > PinnedCount
    ensures Inv(pl, Init(pl))
  {
  }

  /** Every key keeps the cursor on an unpinned row of the active view. */
  lemma StepPreservesInv(pl: seq<string>, s: State, k: Key)
    requires |pl| > PinnedCount
    requires Inv(pl, s)
    ensures Inv(pl, Step(pl, s, k).next)
  {
  }

  /** Any key sequence keeps the invariant, up to and including a confirm. */
  lemma {:induction false} RunPreservesInv(pl: seq<string>, s: State, keys: seq<Key>)
    requires |pl| > PinnedCount
    requires Inv(pl, s)
    ensures Inv(pl, Run(pl, s, keys).state)
    decreases |keys|
  {
    if |keys| > 0 {
      StepPreservesInv(pl, s, keys[0]);
      RunPreservesInv(pl, Step(pl, s, keys[0]).next, keys[1..]);
    }
  }

  /** `up` is silent on the first unpinned row and otherwise moves the cursor up one row; while searching it leaves the selection where it was. */
  lemma UpMovesOneRow(pl: seq<string>, s: State, k: Key)
    requires Classify(k) == MoveUp
    ensures s.selectedIndex <= PinnedCount ==> Step(pl, s, k) == Reaction(s, Silent)
    ensures s.selectedIndex > PinnedCount ==>
      var n := Step(pl, s, k).next;
      && n.selectedIndex == s.selectedIndex - 1
      && n.query == s.query && n.filtered == s.filtered
      && (|s.query| == 0 ==> n.selectedOption == At(pl, n.selectedIndex))
      && (|s.query| > 0 ==> n.selectedOption == s.selectedOption)
  {
  }

  /** The last row `down` can reach: the listing's last row while browsing; while searching also no further than the filter result's last row. */
  function LastReachable(pl: seq<string>, s: State): int {
    if |s.query| == 0 then |pl| - 1 else Min(|s.filtered| + PinnedCount - 1, |pl| - 1)
  }

  /** `down` is silent on the last reachable row and otherwise moves the cursor down one row, selecting the row it lands on. */
  lemma DownMovesOneRow(pl: seq<string>, s: State, k: Key)
    requires Classify(k) == MoveDown
    ensures s.selectedIndex >= LastReachable(pl, s) ==> Step(pl, s, k) == Reaction(s, Silent)
    ensures s.selectedIndex < LastReachable(pl, s) ==>
      var n := Step(pl, s, k).next;
      && n.selectedIndex == s.selectedIndex + 1
      && n.query == s.query && n.filtered == s.filtered
      && n.selectedOption == At(View(pl, n), n.selectedIndex)
  {
  }

  /** While browsing, and while searching with a filter result that fits the listing, `down` stops exactly at the active view's last row. */
  lemma DownStopsAtViewEnd(pl: seq<string>, s: State)
    requires |pl| > PinnedCount
    requires Inv(pl, s)
    requires |s.query| > 0 ==> |s.filtered| <= |pl| - PinnedCount
    ensures LastReachable(pl, s) == |View(pl, s)| - 1
  {
  }

  /** A key that is neither named nor searchable changes nothing and repaints nothing. */
  lemma IgnoredKeyIsSilent(pl: seq<string>, s: State, k: Key)
    requires Classify(k) == Ignore
    ensures Step(pl, s, k) == Reaction(s, Silent)
  {
  }

  /** The filter result after a refilter over `items` for `q`: all matches in order, or the sentinel alone exactly when nothing matches. */
  ghost predicate FilteredFor(filtered: seq<string>, items: seq<string>, q: string) {
    if exists x :: x in items && Matches(x, q) then
      && (forall x :: x in filtered <==> x in items && Matches(x, q))
      && filtered == Filter(items, q)
    else
      filtered == [NoResults]
  }

  lemma RefilteredFor(pl: seq<string>, q: seq<string>, items: seq<string>)
    ensures FilteredFor(Refiltered(pl, q, items).filtered, items, Concat(q))
  {
    var m := Filter(items, Concat(q));
    if |m| > 0 {
      assert m[0] in m;
    }
  }

  /** A searchable key appends its lower-cased text to the query, refilters the unpinned rows and puts the cursor and the selection on the first result. */
  lemma TypingRefilters(pl: seq<string>, s: State, k: Key)
    requires Classify(k).Type?
    ensures var r := Step(pl, s, k);
      && r.next.query == s.query + [Lower(k.text)]
      && FilteredFor(r.next.filtered, Unpinned(pl), Concat(r.next.query))
      && r.next.selectedIndex == PinnedCount
      && (|pl| >= PinnedCount ==> r.next.selectedOption == Some(r.next.filtered[0]))
      && r.effect.Redraw?
  {
    RefilteredFor(pl, s.query + [Lower(k.text)], Unpinned(pl));
  }

  /** `backspace` on an empty query is silent; on a one-entry query it returns to browsing on the first unpinned row and keeps the old filter result. */
  lemma EraseShortQuery(pl: seq<string>, s: State, k: Key)
    requires Classify(k) == Erase
    requires |s.query| <= 1
    ensures |s.query| == 0 ==> Step(pl, s, k) == Reaction(s, Silent)
    ensures |s.query| == 1 ==>
      var n := Step(pl, s, k).next;
      && n.query == [] && View(pl, n) == pl
      && n.selectedIndex == PinnedCount && n.selectedOption == At(pl, PinnedCount)
      && n.filtered == s.filtered
  {
  }

  /** `backspace` on a longer query drops its last entry and refilters the whole listing, pinned rows included. */
  lemma EraseLongQuery(pl: seq<string>, s: State, k: Key)
    requires Classify(k) == Erase
    requires |s.query| >= 2
    ensures var n := Step(pl, s, k).next;
      && n.query == s.query[..|s.query| - 1]
      && FilteredFor(n.filtered, pl, Concat(n.query))
      && n.selectedIndex == PinnedCount
      && (|pl| >= PinnedCount ==> n.selectedOption == Some(n.filtered[0]))
  {
    RefilteredFor(pl, s.query[..|s.query| - 1], pl);
  }

  /** Typing one key and erasing it gives back the query exactly; the filter result is then the refilter of the whole listing. */
  lemma TypeThenEraseRestoresQuery(pl: seq<string>, s: State, k: Key, b: Key)
    requires Classify(k).Type? && Classify(b) == Erase
    ensures var n := Step(pl, Step(pl, s, k).next, b).next;
      && n.query == s.query
      && n.selectedIndex == PinnedCount
      && (|s.query| == 0 ==> View(pl, n) == pl)
      && (|s.query| > 0 ==> n.filtered == OrSentinel(Filter(pl, Concat(s.query))))
  {
    var t := s.query + [Lower(k.text)];
    assert t[..|t| - 1] == s.query;
  }

  /** Typing then erasing restores the active view of a state reached by typing, as long as no pinned row matches the query. */
  lemma TypeThenEraseRestoresView(pl: seq<string>, s: State, k: Key, b: Key)
    requires Classify(k).Type? && Classify(b) == Erase
    requires |s.query| > 0
    requires s.filtered == OrSentinel(Filter(Unpinned(pl), Concat(s.query)))
    requires forall x :: x in Pinned(pl) ==> !Matches(x, Concat(s.query))
    ensures View(pl, Step(pl, Step(pl, s, k).next, b).next) == View(pl, s)
  {
    TypeThenEraseRestoresQuery(pl, s, k, b);
    var q := Concat(s.query);
    FilterAppend(Pinned(pl), Unpinned(pl), q);
    FilterDropsAllUnmatched(Pinned(pl), q);
    assert Filter(pl, q) == Filter(Unpinned(pl), q);
  }

  /** A pinned row matching the query reappears among the results after typing then erasing, so the view is not restored. */
  lemma TypeThenEraseListsPinnedRow(pl: seq<string>, s: State, k: Key, b: Key, x: string)
    requires Classify(k).Type? && Classify(b) == Erase
    requires |s.query| > 0
    requires x in Pinned(pl) && Matches(x, Concat(s.query))
    ensures var n := Step(pl, Step(pl, s, k).next, b).next;
      && x in n.filtered
      && (x !in s.filtered ==> View(pl, n) != View(pl, s))
  {
    TypeThenEraseRestoresQuery(pl, s, k, b);
    var n := Step(pl, Step(pl, s, k).next, b).next;
    assert x in pl by {
      assert Pinned(pl) + Unpinned(pl) == pl;
    }
    if x !in s.filtered {
      assert View(pl, n)[|Pinned(pl)|..] == n.filtered;
      assert View(pl, s)[|Pinned(pl)|..] == s.filtered;
    }
  }

  const BackspaceKey := Key("", "backspace")

  function Backspaces(n: nat): (keys: seq<Key>)
    ensures |keys| == n && forall i :: 0 <= i < n ==> keys[i] == BackspaceKey
  {
    seq(n, _ => BackspaceKey)
  }

  /** Erasing the whole query, whatever filters came before, returns to the unfiltered listing with the cursor on the first unpinned row. */
  lemma {:induction false} EraseAllRestoresListing(pl: seq<string>, s: State)
    requires |s.query| > 0
    ensures var o := Run(pl, s, Backspaces(|s.query|));
      && o.Navigating?
      && o.state.query == [] && View(pl, o.state) == pl
      && o.state.selectedIndex == PinnedCount && o.state.selectedOption == At(pl, PinnedCount)
    decreases |s.query|
  {
    var keys := Backspaces(|s.query|);
    var n := Step(pl, s, BackspaceKey).next;
    assert keys[1..] == Backspaces(|s.query| - 1);
    if |s.query| > 1 {
      EraseAllRestoresListing(pl, n);
    }
  }

  /** Apart from `up` while searching, a repaint always marks the row the selection holds. */
  lemma RepaintMarksSelection(pl: seq<string>, s: State, k: Key)
    requires !(Classify(k) == MoveUp && |s.query| > 0)
    requires Step(pl, s, k).effect.Redraw?
    ensures var r := Step(pl, s, k);
      r.next.selectedOption == At(r.effect.frame.list, r.effect.frame.selectedIndex)
  {
  }

  /** `up` while searching repaints the cursor one row higher but keeps the old selection, so a confirm hands over a row other than the marked one. */
  lemma UpWhileSearchingKeepsStaleSelection(pl: seq<string>, s: State, k: Key)
    requires Classify(k) == MoveUp
    requires |pl| > PinnedCount && Inv(pl, s)
    requires |s.query| > 0 && s.selectedIndex > PinnedCount
    requires s.selectedOption == At(View(pl, s), s.selectedIndex)
    requires View(pl, s)[s.selectedIndex - 1] != View(pl, s)[s.selectedIndex]
    ensures var r := Step(pl, s, k);
      && r.effect.Redraw?
      && r.next.selectedOption != At(r.effect.frame.list, r.effect.frame.selectedIndex)
  {
  }
}

=== FILE: options.dfy ===
/** The optional value used wherever the program may hold JavaScript's `undefined`. */
module Options {

  datatype Option<+T> = None | Some(value: T)

  /** Element `i` of `s`, or `None` where JavaScript indexing would give `undefined`. */
  function At<T>(s: seq<T>, i: int): (r: Option<T>)
    ensures r.Some? <==> 0 <= i < |s|
    ensures r.Some? ==> r.value == s[i]
  {
    if 0 <= i < |s| then Some(s[i]) else None
  }
}

=== FILE: render.dfy ===
/**
  The repaint of the process picker: three header lines (the second one
  blank), the search line, the three pinned rows, a window of at most
  five rows with a `> ` marker on the cursor row, and a trailer line.
  The repaint is returned as its lines instead of being written.
 */
module Render {
  import opened Text
  import opened ListModel

  const Title := "Select a process to track:"
  const Instructions := "Use the arrow keys to navigate the list."
  const Placeholder := "Type to search..."
  /** A rule of 31 `=`, the words END OF LIST, and a rule of 32 `=`. */
  const EndOfList := Repeat('=', 31) + " END OF LIST " + Repeat('=', 32)

  function Repeat(c: char, n: nat): string {
    seq(n, _ => c)
  }

  /** Window capacity used by every repaint. */
  const ItemsToShow := 5

  /** Lines before the window: the header, the search line and the three pinned rows. */
  const HeadLines := 7

  /** `${list[i]}`: a row, or the text "undefined" past the end. */
  function Show(list: seq<string>, i: int): string {
    if 0 <= i < |list| then list[i] else "undefined"
  }

  function Marker(selected: bool): string {
    if selected then "> " else "  "
  }

  /** The window rows `lo` up to but excluding `hi`, each prefixed with its marker. */
  function Rows(list: seq<string>, selectedIndex: int, lo: int, hi: int): (r: seq<string>)
    ensures |r| == if lo < hi then hi - lo else 0
    ensures forall j :: 0 <= j < |r| ==> r[j] == Marker(lo + j == selectedIndex) + Show(list, lo + j)
    decreases hi - lo
  {
    if lo >= hi then [] else [Marker(lo == selectedIndex) + Show(list, lo)] + Rows(list, selectedIndex, lo + 1, hi)
  }

  /** `search || "Type to search..."`, where "" stands for no search. */
  function SearchLine(search: string): string {
    "Search query: " + (if search == "" then Placeholder else search)
  }

  function Header(list: seq<string>, search: string): (r: seq<string>)
    ensures |r| == HeadLines
  {
    [Title, "", Instructions, SearchLine(search), Show(list, 0), Show(list, 1), Show(list, 2)]
  }

  function MoreBelow(n: nat): string {
    NatToString(n) + " more items below..."
  }

  /** The lines `printList(list, selectedIndex, search, itemsToShow)` writes. */
  function PrintList(list: seq<string>, selectedIndex: int, search: string, itemsToShow: int): seq<string>
  {
    if selectedIndex + itemsToShow >= |list| || |list| - 3 <= itemsToShow then
      // tail window, shrunk to the unpinned rows when there are few of them
      var shown := if |list| - 3 <= itemsToShow then |list| - 3 else itemsToShow;
      Header(list, search) + Rows(list, selectedIndex, |list| - shown, |list|) + [EndOfList]
    else
      var trailer :=
        if selectedIndex + itemsToShow < |list| then MoreBelow(|list| - (selectedIndex + itemsToShow))
        else EndOfList;
      Header(list, search) + Rows(list, selectedIndex, selectedIndex, selectedIndex + itemsToShow) + [trailer]
  }

  /** Number of window rows for a list: the capacity, or all unpinned rows when fewer. */
  function WindowSize(list: seq<string>): int {
    Min(ItemsToShow, |list| - 3)
  }

  /** First window row: the cursor row, unless the window would then run past the end, in which case the tail. */
  function WindowStart(list: seq<string>, selectedIndex: int): int {
    Min(selectedIndex, |list| - WindowSize(list))
  }

  /** The trailer after a window that ends just before row `hi`. */
  function Trailer(list: seq<string>, hi: int): string {
    if hi >= |list| then EndOfList else MoreBelow(|list| - hi)
  }

  /** The window bounds: its size is between 1 and 5, it contains the cursor row, and each branch of `printList` picks exactly it. */
  lemma WindowBounds(list: seq<string>, selectedIndex: int)
    requires 3 <= selectedIndex < |list|
    ensures var k := WindowSize(list);
      var lo := WindowStart(list, selectedIndex);
      && 1 <= k <= ItemsToShow
      && 3 <= lo <= selectedIndex < lo + k <= |list|
      && (selectedIndex + ItemsToShow >= |list| || |list| - 3 <= ItemsToShow ==>
            && lo == |list| - (if |list| - 3 <= ItemsToShow then |list| - 3 else ItemsToShow)
            && lo + k == |list|)
      && (!(selectedIndex + ItemsToShow >= |list| || |list| - 3 <= ItemsToShow) ==>
            lo == selectedIndex && k == ItemsToShow && selectedIndex + ItemsToShow < |list|)
  {
  }

  /** The tail branch of the repaint shows the last `WindowSize` rows and END OF LIST. */
  lemma TailBranchIsWindow(list: seq<string>, selectedIndex: int, search: string)
    requires selectedIndex + ItemsToShow >= |list| || |list| - 3 <= ItemsToShow
    ensures PrintList(list, selectedIndex, search, ItemsToShow)
        == Header(list, search) + Rows(list, selectedIndex, |list| - WindowSize(list), |list|) + [EndOfList]
  {
  }

  /** The scrolling branch of the repaint shows five rows from the cursor row, with rows left below them. */
  lemma ScrollBranchIsWindow(list: seq<string>, selectedIndex: int, search: string)
    requires !(selectedIndex + ItemsToShow >= |list| || |list| - 3 <= ItemsToShow)
    ensures PrintList(list, selectedIndex, search, ItemsToShow)
        == Header(list, search)
          + Rows(list, selectedIndex, selectedIndex, selectedIndex + ItemsToShow)
          + [MoreBelow(|list| - (selectedIndex + ItemsToShow))]
  {
  }

  /** Both branches of the repaint show the window `WindowSize` rows long that starts at `WindowStart`. */
  lemma PrintListIsWindow(list: seq<string>, selectedIndex: int, search: string)
    requires 3 <= selectedIndex < |list|
    ensures var lo := WindowStart(list, selectedIndex);
      var hi := lo + WindowSize(list);
      PrintList(list, selectedIndex, search, ItemsToShow)
        == Header(list, search) + Rows(list, selectedIndex, lo, hi) + [Trailer(list, hi)]
  {
    WindowBounds(list, selectedIndex);
    var lo := WindowStart(list, selectedIndex);
    var hi := lo + WindowSize(list);
    if selectedIndex + ItemsToShow >= |list| || |list| - 3 <= ItemsToShow {
      TailBranchIsWindow(list, selectedIndex, search);
      assert lo == |list| - WindowSize(list) && hi == |list|;
      assert Trailer(list, hi) == EndOfList;
    } else {
      ScrollBranchIsWindow(list, selectedIndex, search);
      assert lo == selectedIndex && hi == selectedIndex + ItemsToShow;
      assert Trailer(list, hi) == MoreBelow(|list| - hi);
    }
  }

  /**
    With the cursor on an unpinned row, the repaint is the head lines, then
    `WindowSize` consecutive rows from `WindowStart` that contain the cursor
    row, then END OF LIST exactly when the window reaches the last row and
    otherwise the count of rows below the window.
   */
  lemma PrintListLayout(list: seq<string>, selectedIndex: int, search: string)
    requires 3 <= selectedIndex < |list|
    ensures var r := PrintList(list, selectedIndex, search, ItemsToShow);
      var k := WindowSize(list);
      var lo := WindowStart(list, selectedIndex);
      var window := r[HeadLines..HeadLines + k];
      && 1 <= k <= ItemsToShow
      && 3 <= lo <= selectedIndex < lo + k <= |list|
      && |r| == HeadLines + k + 1
      && r[..HeadLines] == Header(list, search)
      && r[4..HeadLines] == list[..3]
      && (forall j :: 0 <= j < k ==> window[j] == Marker(lo + j == selectedIndex) + list[lo + j])
      && r[HeadLines + k] == (if lo + k == |list| then EndOfList else MoreBelow(|list| - (lo + k)))
  {
    PrintListIsWindow(list, selectedIndex, search);
    WindowBounds(list, selectedIndex);
    var r := PrintList(list, selectedIndex, search, ItemsToShow);
    var k := WindowSize(list);
    var lo := WindowStart(list, selectedIndex);
    var rows := Rows(list, selectedIndex, lo, lo + k);
    var h := Header(list, search);
    assert r == h + rows + [Trailer(list, lo + k)];
    Sections(h, rows, Trailer(list, lo + k));
    assert h[4..] == list[..3];
    assert r[4..HeadLines] == r[..HeadLines][4..];
  }

  /** Where the head lines, the window rows and the trailer sit in a repaint. */
  lemma Sections(h: seq<string>, rows: seq<string>, trailer: string)
    requires |h| == HeadLines
    ensures var r := h + rows + [trailer];
      && |r| == HeadLines + |rows| + 1
      && r[..HeadLines] == h
      && r[HeadLines..HeadLines + |rows|] == rows
      && r[HeadLines + |rows|] == trailer
  {
    var r := h + rows + [trailer];
    assert r[..HeadLines] == h;
    assert r[HeadLines..HeadLines + |rows|] == rows;
  }

  /** Exactly one window row carries the `>` marker, and it shows the cursor row. */
  lemma PrintListMarksOneRow(list: seq<string>, selectedIndex: int, search: string)
    requires 3 <= selectedIndex < |list|
    ensures var r := PrintList(list, selectedIndex, search, ItemsToShow);
      var k := WindowSize(list);
      var lo := WindowStart(list, selectedIndex);
      var window := r[HeadLines..HeadLines + k];
      && (forall j :: 0 <= j < k ==> (window[j][0] == '>' <==> lo + j == selectedIndex))
      && window[selectedIndex - lo] == "> " + list[selectedIndex]
  {
    PrintListLayout(list, selectedIndex, search);
  }

  /** The trailer is END OF LIST exactly when the last row is in the window, and otherwise counts the rows after it. */
  lemma PrintListTrailer(list: seq<string>, selectedIndex: int, search: string)
    requires 3 <= selectedIndex < |list|
    ensures var r := PrintList(list, selectedIndex, search, ItemsToShow);
      var last := WindowStart(list, selectedIndex) + WindowSize(list) - 1;
      && (r[|r| - 1] == EndOfList <==> last == |list| - 1)
      && (last < |list| - 1 ==> r[|r| - 1] == MoreBelow(|list| - 1 - last))
  {
    PrintListLayout(list, selectedIndex, search);
    var lo := WindowStart(list, selectedIndex);
    var k := WindowSize(list);
    if lo + k < |list| {
      var m := MoreBelow(|list| - (lo + k));
      assert m[0] != EndOfList[0];
    }
  }
}

=== FILE: scenarios.dfy ===
/** Runs of the picker over any listing that holds rows of a Windows process list. */
module Scenarios {
  import opened Options
  import opened Text
  import opened ListModel
  import opened Navigator

  /** The key a lower-case letter produces. */
  function Letter(c: char): Key {
    Key([c], [c])
  }

  lemma LetterIsTyped(c: char)
    requires 'a' <= c <= 'z'
    ensures Classify(Letter(c)) == Type([c])
  {
    assert Lower([c]) == [c];
  }

  /** Feeding two key sequences one after the other is feeding their concatenation. */
  lemma {:induction false} RunConcat(pl: seq<string>, s: State, a: seq<Key>, b: seq<Key>)
    ensures Run(pl, s, a + b) ==
      match Run(pl, s, a)
      case Confirmed(_, _) => Run(pl, s, a)
      case Navigating(t) => Run(pl, t, b)
    decreases |a|
  {
    if |a| == 0 {
      assert a + b == b;
    } else {
      assert (a + b)[0] == a[0];
      assert (a + b)[1..] == a[1..] + b;
      RunConcat(pl, Step(pl, s, a[0]).next, a[1..], b);
    }
  }

  /** A letter extends the query and keeps every unpinned row that matches the extended query. */
  lemma LetterKeepsMatch(pl: seq<string>, s: State, c: char, x: string)
    requires 'a' <= c <= 'z'
    requires x in Unpinned(pl) && Matches(x, Concat(s.query + [[c]]))
    ensures Step(pl, s, Letter(c)).next.query == s.query + [[c]]
    ensures x in Step(pl, s, Letter(c)).next.filtered
  {
    LetterIsTyped(c);
  }

  /** A row holding the lower-case text `t` matches `t`, whatever surrounds it. */
  lemma MiddleMatches(x: string, t: string, y: string)
    requires Lower(t) == t
    ensures Matches(x + t + y, t)
  {
    LowerAppend(x + t, y);
    LowerAppend(x, t);
    ContainsInMiddle(Lower(x), t, Lower(y));
  }

  lemma ChromeAndSvchostContainCh()
    ensures Matches("chrome.exe 111", "ch")
    ensures Matches("svchost.exe 333", "ch")
  {
    assert Lower("ch") == "ch";
    MiddleMatches("", "ch", "rome.exe 111");
    assert "" + "ch" + "rome.exe 111" == "chrome.exe 111";
    MiddleMatches("sv", "ch", "ost.exe 333");
    assert "sv" + "ch" + "ost.exe 333" == "svchost.exe 333";
  }

  /** A letter key repaints and extends the query by that letter. */
  lemma LetterExtendsQuery(pl: seq<string>, s: State, c: char)
    requires 'a' <= c <= 'z'
    ensures Step(pl, s, Letter(c)).effect.Redraw?
    ensures Step(pl, s, Letter(c)).next.query == s.query + [[c]]
  {
    LetterIsTyped(c);
    TypingRefilters(pl, s, Letter(c));
    assert Lower([c]) == [c];
  }

  /** Two keys, neither of which confirms, leave the picker in the state the second one reaches. */
  lemma RunTwo(pl: seq<string>, s: State, k1: Key, k2: Key)
    requires !Step(pl, s, k1).effect.Handoff?
    requires !Step(pl, Step(pl, s, k1).next, k2).effect.Handoff?
    ensures Run(pl, s, [k1, k2]) == Navigating(Step(pl, Step(pl, s, k1).next, k2).next)
  {
    var t := Step(pl, s, k1).next;
    assert [k1, k2][1..] == [k2];
    assert Run(pl, s, [k1, k2]) == Run(pl, t, [k2]);
    assert [k2][1..] == [];
    assert Run(pl, t, [k2]) == Run(pl, Step(pl, t, k2).next, []);
  }

  /** The query of two one-letter entries is the two letters. */
  lemma TwoLetterQuery(c1: char, c2: char)
    ensures Concat([[c1]] + [[c2]]) == [c1, c2]
  {
    ConcatAppend([[c1]], [c2]);
    assert [[c1]][..0] == [];
    assert Concat([[c1]]) == [c1];
  }

  /** Two typed letters keep every unpinned row that contains them side by side. */
  lemma TwoLettersKeepMatch(pl: seq<string>, c1: char, c2: char, x: string)
    requires 'a' <= c1 <= 'z' && 'a' <= c2 <= 'z'
    requires x in Unpinned(pl) && Matches(x, [c1, c2])
    ensures var o := Run(pl, Init(pl), [Letter(c1), Letter(c2)]);
      && o.Navigating? && o.state.query == [[c1], [c2]] && x in o.state.filtered
  {
    var s0 := Init(pl);
    LetterExtendsQuery(pl, s0, c1);
    var s1 := Step(pl, s0, Letter(c1)).next;
    assert s1.query == [[c1]];
    LetterExtendsQuery(pl, s1, c2);
    TwoLetterQuery(c1, c2);
    LetterKeepsMatch(pl, s1, c2, x);
    RunTwo(pl, s0, Letter(c1), Letter(c2));
  }

  /** Typing "ch" keeps every unpinned row containing "ch": "svchost.exe" stays beside "chrome.exe". */
  lemma TypingChKeepsSvchost(pl: seq<string>)
    requires "chrome.exe 111" in Unpinned(pl) && "svchost.exe 333" in Unpinned(pl)
    ensures var o := Run(pl, Init(pl), [Letter('c'), Letter('h')]);
      && o.Navigating?
      && "chrome.exe 111" in o.state.filtered && "svchost.exe 333" in o.state.filtered
  {
    ChromeAndSvchostContainCh();
    TwoLettersKeepMatch(pl, 'c', 'h', "chrome.exe 111");
    TwoLettersKeepMatch(pl, 'c', 'h', "svchost.exe 333");
  }

  /** Typing a letter no unpinned row holds leaves only the sentinel, which the cursor and the selection then hold. */
  lemma UnmatchedLetterShowsSentinel(pl: seq<string>, s: State, c: char)
    requires |pl| > PinnedCount && 'a' <= c <= 'z'
    requires forall x :: x in Unpinned(pl) ==> c !in Lower(x)
    ensures var n := Step(pl, s, Letter(c)).next;
      && View(pl, n) == Pinned(pl) + [NoResults]
      && n.selectedIndex == PinnedCount
      && n.selectedOption == Some(NoResults)
  {
    LetterIsTyped(c);
    TypingRefilters(pl, s, Letter(c));
    var q := Concat(s.query + [[c]]);
    ConcatAppend(s.query, [c]);
    assert q[|q| - 1] == c;
    forall x | x in Unpinned(pl)
      ensures !Matches(x, q)
    {
      AbsentCharNotContained(Lower(x), q, c);
    }
  }

  /** Whatever letters are typed, erasing them all returns to the unfiltered listing. */
  lemma TypeThenEraseAll(pl: seq<string>, typed: seq<char>)
    requires |typed| > 0
    requires forall i :: 0 <= i < |typed| ==> 'a' <= typed[i] <= 'z'
    ensures var o := Run(pl, Init(pl), seq(|typed|, i requires 0 <= i < |typed| => Letter(typed[i])) + Backspaces(|typed|));
      && o.Navigating? && View(pl, o.state) == pl && o.state.selectedIndex == PinnedCount
  {
    var keys := seq(|typed|, i requires 0 <= i < |typed| => Letter(typed[i]));
    forall i | 0 <= i < |keys|
      ensures Classify(keys[i]).Type?
    {
      LetterIsTyped(typed[i]);
    }
    TypedLength(pl, Init(pl), keys);
    var t := Run(pl, Init(pl), keys);
    RunConcat(pl, Init(pl), keys, Backspaces(|typed|));
    EraseAllRestoresListing(pl, t.state);
  }

  /** Every searchable key lengthens the query by one entry and never confirms. */
  lemma {:induction false} TypedLength(pl: seq<string>, s: State, keys: seq<Key>)
    requires forall i :: 0 <= i < |keys| ==> Classify(keys[i]).Type?
    ensures Run(pl, s, keys).Navigating?
    ensures |Run(pl, s, keys).state.query| == |s.query| + |keys|
    decreases |keys|
  {
    if |keys| > 0 {
      TypingRefilters(pl, s, keys[0]);
      TypedLength(pl, Step(pl, s, keys[0]).next, keys[1..]);
    }
  }
}

=== FILE: session.dfy ===
/**
  What happens around the picker: the repaint each key triggers, and the
  hand-over of the confirmed row, whose first two words are taken as the
  process name and id for the tracking loop.
 */
module Session {
  import opened Options
  import opened Text
  import opened ListModel
  import opened Navigator
  import opened Render

  /** The lines of one repaint. */
  function Screen(f: Frame): seq<string> {
    PrintList(f.list, f.selectedIndex, f.search, ItemsToShow)
  }

  /** `getInfo`: the first two words of a process record, as (name, pid); missing words are undefined. */
  function GetInfo(record: string): (r: (Option<string>, Option<string>))
    ensures r.0.Some? <==> |Words(record)| >= 1
    ensures r.1.Some? <==> |Words(record)| >= 2
    ensures r.0.Some? ==> r.0.value == Words(record)[0] && r.0.value != "" && ' ' !in r.0.value
    ensures r.1.Some? ==> r.0.Some? && r.1.value == Words(record)[1] && r.1.value != "" && ' ' !in r.1.value
  {
    WordsAreSpaceFree(record);
    var words := Words(record);
    assert |words| > 0 ==> words[0] in words;
    assert |words| > 1 ==> words[1] in words;
    (At(words, 0), At(words, 1))
  }

  /** The result of a confirm: tracking starts with the name and id, or the hand-over fails because nothing was selected. */
  datatype Handoff = StartTracking(name: Option<string>, pid: Option<string>) | NothingSelected

  /** A confirm on an undefined selection makes `getInfo` reject and no tracking starts. */
  function HandOver(choice: Option<string>): (h: Handoff)
    ensures h == NothingSelected <==> choice.None?
    ensures choice.Some? ==> h == StartTracking(At(Words(choice.value), 0), At(Words(choice.value), 1))
  {
    match choice
    case None => NothingSelected
    case Some(record) => var info := GetInfo(record); StartTracking(info.0, info.1)
  }

  /** The length of the run of spaces that starts `s`. */
  function LeadingSpaces(s: string): (n: nat)
    ensures n <= |s|
    ensures forall j :: 0 <= j < n ==> s[j] == ' '
    ensures n < |s| ==> s[n] != ' '
  {
    if |s| > 0 && s[0] == ' ' then 1 + LeadingSpaces(s[1..]) else 0
  }

  /** A record of a name, a run of spaces, an id and space-led trailing columns gives back that name and id. */
  lemma GetInfoOfRecord(name: string, gap: nat, pid: string, rest: string)
    requires name != "" && ' ' !in name && pid != "" && ' ' !in pid
    requires gap >= 1
    requires rest == "" || rest[0] == ' '
    ensures GetInfo(name + seq(gap, _ => ' ') + pid + rest) == (Some(name), Some(pid))
  {
    var spaces := seq(gap, _ => ' ');
    assert name + spaces + pid + rest == name + spaces + (pid + rest);
    WordsAroundSpaces(name, gap, pid + rest);
    OneWord(name);
    if rest == "" {
      assert pid + rest == pid;
      OneWord(pid);
    } else {
      var i := LeadingSpaces(rest);
      assert rest[..i] == seq(i, _ => ' ');
      assert pid + rest == pid + seq(i, _ => ' ') + rest[i..];
      WordsAroundSpaces(pid, i, rest[i..]);
      OneWord(pid);
    }
  }

  /** Only the space character separates words: a tab stays inside the name. */
  lemma GetInfoKeepsTabs()
    ensures GetInfo("a\tb 7") == (Some("a\tb"), Some("7"))
  {
    GetInfoOfRecord("a\tb", 1, "7", "");
    assert "a\tb" + seq(1, _ => ' ') + "7" + "" == "a\tb 7";
  }

  /** Confirming on the sentinel row tracks a process named "No" with id "results". */
  lemma ConfirmOnSentinel()
    ensures HandOver(Some(NoResults)) == StartTracking(Some("No"), Some("results"))
  {
    GetInfoOfRecord("No", 1, "results", " found.");
    assert "No" + seq(1, _ => ' ') + "results" + " found." == NoResults;
  }

  const ReturnKey := Key("\r", "return")

  /** `return` before any other key hands over the listing's first row, although the repaint marks row 3. */
  lemma ConfirmBeforeAnyKey(pl: seq<string>)
    requires |pl| > PinnedCount
    ensures Run(pl, Init(pl), [ReturnKey]) == Confirmed(Init(pl), Some(pl[0]))
    ensures Screen(InitialFrame(pl))[HeadLines] == "> " + pl[PinnedCount]
  {
    assert Classify(ReturnKey) == Confirm;
    assert [ReturnKey][1..] == [];
    FirstRepaintMarksRowThree(pl);
  }

  /** The first repaint marks row 3, the first unpinned row, as the window's first row. */
  lemma FirstRepaintMarksRowThree(pl: seq<string>)
    requires |pl| > PinnedCount
    ensures Screen(InitialFrame(pl))[HeadLines] == "> " + pl[PinnedCount]
  {
    PrintListLayout(pl, PinnedCount, "");
    var r := PrintList(pl, PinnedCount, "", ItemsToShow);
    assert WindowStart(pl, PinnedCount) == PinnedCount;
    assert r[HeadLines..HeadLines + WindowSize(pl)][0] == r[HeadLines];
  }

  /**
    After any key that repaints, starting from a state that keeps the
    invariant, the screen's search line shows the query and its one marked
    row shows the cursor row of the active view.
   */
  lemma ScreenShowsState(pl: seq<string>, s: State, k: Key)
    requires |pl| > PinnedCount && Inv(pl, s)
    requires Step(pl, s, k).effect.Redraw?
    ensures var r := Step(pl, s, k);
      var lines := Screen(r.effect.frame);
      var view := View(pl, r.next);
      var lo := WindowStart(view, r.next.selectedIndex);
      && lines[3] == SearchLine(Concat(r.next.query))
      && lines[HeadLines + r.next.selectedIndex - lo] == "> " + view[r.next.selectedIndex]
  {
    StepPreservesInv(pl, s, k);
    var r := Step(pl, s, k);
    assert r.effect.frame == Frame(View(pl, r.next), r.next.selectedIndex, Concat(r.next.query));
    RepaintShows(View(pl, r.next), r.next.selectedIndex, Concat(r.next.query));
  }

  /** A repaint with the cursor on an unpinned row shows the search text and marks the cursor row. */
  lemma RepaintShows(view: seq<string>, selectedIndex: int, search: string)
    requires 3 <= selectedIndex < |view|
    ensures var lines := PrintList(view, selectedIndex, search, ItemsToShow);
      var lo := WindowStart(view, selectedIndex);
      && lines[3] == SearchLine(search)
      && lines[HeadLines + selectedIndex - lo] == "> " + view[selectedIndex]
  {
    PrintListLayout(view, selectedIndex, search);
    var lines := PrintList(view, selectedIndex, search, ItemsToShow);
    var lo := WindowStart(view, selectedIndex);
    var k := WindowSize(view);
    assert lines[..HeadLines][3] == lines[3];
    assert lines[HeadLines..HeadLines + k][selectedIndex - lo] == lines[HeadLines + selectedIndex - lo];
  }
}

=== FILE: text.dfy ===
/**
  The string operations the program relies on: lower-casing, `includes`,
  `split(" ")`, `join("")` and the decimal rendering of a count.
  Strings are sequences of characters; lower-casing covers ASCII letters only.
 */
module Text {

  /** ASCII lower-casing of one character. */
  function LowerChar(c: char): (r: char)
    ensures !('A' <= r <= 'Z')
    ensures !('A' <= c <= 'Z') ==> r == c
    ensures 'A' <= c <= 'Z' ==> 'a' <= r <= 'z' && r as int - 'a' as int == c as int - 'A' as int
  {
    if 'A' <= c <= 'Z' then (c as int - 'A' as int + 'a' as int) as char else c
  }

  /** `toLowerCase` on a string: every character lower-cased, the length kept. */
  function Lower(s: string): string {
    seq(|s|, i requires 0 <= i < |s| => LowerChar(s[i]))
  }

  predicate IsPrefix(p: string, s: string) {
    |p| <= |s| && s[..|p|] == p
  }

  /** `s.includes(t)`: some position of `s` starts an occurrence of `t`. */
  predicate Contains(s: string, t: string)
    decreases |s|
  {
    IsPrefix(t, s) || (|s| > 0 && Contains(s[1..], t))
  }

  /** `t` occurs in `s` starting at position `i`. */
  predicate OccursAt(s: string, t: string, i: int) {
    0 <= i <= |s| - |t| && s[i..i + |t|] == t
  }

  /** `Contains` agrees with the positional definition of a substring occurrence. */
  lemma {:induction false} ContainsIffOccurs(s: string, t: string)
    ensures Contains(s, t) <==> exists i :: OccursAt(s, t, i)
    decreases |s|
  {
    if IsPrefix(t, s) {
      assert OccursAt(s, t, 0);
    } else if |s| > 0 {
      ContainsIffOccurs(s[1..], t);
      if Contains(s[1..], t) {
        var i :| OccursAt(s[1..], t, i);
        OccursInTail(s, t, i + 1);
      } else {
        forall i | OccursAt(s, t, i)
          ensures false
        {
          if i > 0 {
            OccursInTail(s, t, i);
          }
        }
      }
    }
  }

  /** An occurrence after the first position of `s` is an occurrence in `s[1..]`, one position earlier. */
  lemma OccursInTail(s: string, t: string, i: int)
    requires |s| > 0 && i > 0
    ensures OccursAt(s, t, i) <==> OccursAt(s[1..], t, i - 1)
  {
    if 0 < i <= |s| - |t| {
      assert s[1..][i - 1..i - 1 + |t|] == s[i..i + |t|];
    }
  }

  /** Lower-casing works character by character, so it distributes over concatenation. */
  lemma LowerAppend(a: string, b: string)
    ensures Lower(a + b) == Lower(a) + Lower(b)
  {
    assert forall i :: 0 <= i < |a + b| ==> Lower(a + b)[i] == (Lower(a) + Lower(b))[i];
  }

  /** A string contains whatever sits in its middle. */
  lemma ContainsInMiddle(x: string, t: string, y: string)
    ensures Contains(x + t + y, t)
  {
    var s := x + t + y;
    assert s[|x|..|x| + |t|] == t;
    assert OccursAt(s, t, |x|);
    ContainsIffOccurs(s, t);
  }

  /** A string lacking one of the characters of `t` does not contain `t`. */
  lemma AbsentCharNotContained(s: string, t: string, c: char)
    requires c in t && c !in s
    ensures !Contains(s, t)
  {
    ContainsIffOccurs(s, t);
  }

  /** `parts.join("")`. */
  function Concat(parts: seq<string>): (r: string)
    ensures |parts| == 0 ==> r == ""
  {
    if |parts| == 0 then "" else Concat(parts[..|parts| - 1]) + parts[|parts| - 1]
  }

  /** Joining after appending one part extends the joined string by that part. */
  lemma ConcatAppend(parts: seq<string>, p: string)
    ensures Concat(parts + [p]) == Concat(parts) + p
  {
    assert (parts + [p])[..|parts|] == parts;
  }

  /** Joins `parts` with the separator `sep` between neighbours. */
  function JoinWith(parts: seq<string>, sep: char): string
  {
    if |parts| == 0 then ""
    else if |parts| == 1 then parts[0]
    else parts[0] + [sep] + JoinWith(parts[1..], sep)
  }

  /** `s.split(sep)` for a one-character separator: the maximal runs between separators, empty runs included. */
  function Split(s: string, sep: char): (r: seq<string>)
    ensures |r| >= 1
    decreases |s|
  {
    if |s| == 0 then [""]
    else
      var rest := Split(s[1..], sep);
      if s[0] == sep then [""] + rest
      else [[s[0]] + rest[0]] + rest[1..]
  }

  /** Splitting cuts only at separators: the pieces hold no separator and join back to `s`. */
  lemma {:induction false} SplitJoin(s: string, sep: char)
    ensures forall p :: p in Split(s, sep) ==> sep !in p
    ensures JoinWith(Split(s, sep), sep) == s
    decreases |s|
  {
    if |s| > 0 {
      SplitJoin(s[1..], sep);
      var rest := Split(s[1..], sep);
      if s[0] == sep {
        assert ([""] + rest)[1..] == rest;
      } else {
        var r := [[s[0]] + rest[0]] + rest[1..];
        assert r[1..] == rest[1..];
        if |rest| == 1 {
          assert s == [s[0]] + s[1..];
        } else {
          assert rest == [rest[0]] + rest[1..];
          assert JoinWith(rest, sep) == rest[0] + [sep] + JoinWith(rest[1..], sep);
          assert s == [s[0]] + s[1..];
        }
      }
    }
  }

  /** Conversely, separator-free parts joined with the separator split back into exactly those parts. */
  lemma {:induction false} JoinSplit(parts: seq<string>, sep: char)
    requires |parts| >= 1
    requires forall p :: p in parts ==> sep !in p
    ensures Split(JoinWith(parts, sep), sep) == parts
    decreases |parts|, |parts[0]|
  {
    if |parts[0]| == 0 {
      if |parts| == 1 {
      } else {
        var tail := JoinWith(parts[1..], sep);
        assert JoinWith(parts, sep) == [sep] + tail;
        assert ([sep] + tail)[1..] == tail;
        JoinSplit(parts[1..], sep);
        assert parts == [""] + parts[1..];
      }
    } else {
      var c := parts[0][0];
      assert c in parts[0];
      var shorter := [parts[0][1..]] + parts[1..];
      forall p | p in shorter
        ensures sep !in p
      {
        if p == parts[0][1..] {
          assert parts[0] in parts;
        } else {
          assert p in parts[1..];
        }
      }
      JoinSplit(shorter, sep);
      var j := JoinWith(parts, sep);
      var js := JoinWith(shorter, sep);
      assert shorter[1..] == parts[1..];
      assert j == [c] + js by {
        assert parts[0] == [c] + parts[0][1..];
      }
      assert j[0] == c && j[1..] == js;
      var rest := Split(js, sep);
      assert rest == shorter;
      assert Split(j, sep) == [[c] + rest[0]] + rest[1..];
      assert [c] + parts[0][1..] == parts[0];
      assert parts == [parts[0]] + parts[1..];
    }
  }

  /** The non-empty entries of `parts`, in order (`filter((e) => e !== "")`). */
  function NonEmpty(parts: seq<string>): (r: seq<string>)
    ensures forall p :: p in r <==> p in parts && p != ""
    ensures |r| <= |parts|
  {
    if |parts| == 0 then []
    else (if parts[0] == "" then [] else [parts[0]]) + NonEmpty(parts[1..])
  }

  /** The space-free words of `s`, where only the space character separates words. */
  function Words(s: string): seq<string>
  {
    NonEmpty(Split(s, ' '))
  }

  /** Every word is non-empty and holds no space. */
  lemma WordsAreSpaceFree(s: string)
    ensures forall w :: w in Words(s) ==> w != "" && ' ' !in w
  {
    SplitJoin(s, ' ');
  }

  /** Separating non-empty space-free words by single spaces and taking the words again gives them back. */
  lemma WordsOfJoin(words: seq<string>)
    requires |words| >= 1
    requires forall w :: w in words ==> w != "" && ' ' !in w
    ensures Words(JoinWith(words, ' ')) == words
  {
    JoinSplit(words, ' ');
    NonEmptyOfNonEmpty(words);
  }

  lemma {:induction false} NonEmptyOfNonEmpty(parts: seq<string>)
    requires forall p :: p in parts ==> p != ""
    ensures NonEmpty(parts) == parts
    decreases |parts|
  {
    if |parts| > 0 {
      assert parts[0] in parts;
      assert forall p :: p in parts[1..] ==> p in parts;
      NonEmptyOfNonEmpty(parts[1..]);
      assert parts == [parts[0]] + parts[1..];
    }
  }

  function DigitChar(d: int): (c: char)
    requires 0 <= d < 10
    ensures '0' <= c <= '9'
  {
    (d + '0' as int) as char
  }

  /** Decimal rendering of a natural number, as a template literal prints it. */
  function NatToString(n: nat): (r: string)
    ensures |r| >= 1
    ensures forall i :: 0 <= i < |r| ==> '0' <= r[i] <= '9'
  {
    if n < 10 then [DigitChar(n)] else NatToString(n / 10) + [DigitChar(n % 10)]
  }

  /** Reads back a string of decimal digits. */
  function DigitsValue(s: string): nat
    requires forall i :: 0 <= i < |s| ==> '0' <= s[i] <= '9'
  {
    if |s| == 0 then 0 else 10 * DigitsValue(s[..|s| - 1]) + (s[|s| - 1] as int - '0' as int)
  }

  /** The decimal rendering reads back as the number it renders. */
  lemma {:induction false} NatToStringRoundTrip(n: nat)
    ensures DigitsValue(NatToString(n)) == n
  {
    if n >= 10 {
      NatToStringRoundTrip(n / 10);
      var s := NatToString(n);
      assert s[..|s| - 1] == NatToString(n / 10);
    }
  }

  /** One step of `Split`: the first character either opens a new piece or joins the first one. */
  lemma SplitCons(c: char, t: string, sep: char)
    ensures Split([c] + t, sep) ==
      (if c == sep then [""] + Split(t, sep)
       else [[c] + Split(t, sep)[0]] + Split(t, sep)[1..])
  {
    assert ([c] + t)[0] == c;
    assert ([c] + t)[1..] == t;
  }

  /** Splitting at one separator splits the two sides independently. */
  lemma {:induction false} SplitAroundSeparator(a: string, b: string, sep: char)
    ensures Split(a + [sep] + b, sep) == Split(a, sep) + Split(b, sep)
    decreases |a|
  {
    if |a| == 0 {
      assert a + [sep] + b == [sep] + b;
      SplitCons(sep, b, sep);
    } else {
      assert a == [a[0]] + a[1..];
      SplitAroundSeparator(a[1..], b, sep);
      SplitAroundSeparatorStep(a[0], a[1..], b, sep);
    }
  }

  /** The inductive step of `SplitAroundSeparator`: putting one more character in front. */
  lemma SplitAroundSeparatorStep(c: char, t: string, b: string, sep: char)
    requires Split(t + [sep] + b, sep) == Split(t, sep) + Split(b, sep)
    ensures Split([c] + t + [sep] + b, sep) == Split([c] + t, sep) + Split(b, sep)
  {
    ConsAssoc(c, t, sep, b);
    SplitCons(c, t + [sep] + b, sep);
    SplitCons(c, t, sep);
    if c == sep {
      assert [""] + (Split(t, sep) + Split(b, sep)) == [""] + Split(t, sep) + Split(b, sep);
    } else {
      ExtendHeadAppend([c], Split(t, sep), Split(b, sep));
    }
  }

  lemma ConsAssoc<T>(c: T, t: seq<T>, d: T, u: seq<T>)
    ensures [c] + t + [d] + u == [c] + (t + [d] + u)
  {
  }

  /** Extending the first piece commutes with appending more pieces. */
  lemma ExtendHeadAppend(p: string, left: seq<string>, right: seq<string>)
    requires |left| >= 1
    ensures [p + (left + right)[0]] + (left + right)[1..] == ([p + left[0]] + left[1..]) + right
  {
    assert (left + right)[0] == left[0];
    assert (left + right)[1..] == left[1..] + right;
  }

  lemma {:induction false} NonEmptyAppend(x: seq<string>, y: seq<string>)
    ensures NonEmpty(x + y) == NonEmpty(x) + NonEmpty(y)
    decreases |x|
  {
    if |x| == 0 {
      assert x + y == y;
    } else {
      assert (x + y)[0] == x[0];
      assert (x + y)[1..] == x[1..] + y;
      NonEmptyAppend(x[1..], y);
    }
  }

  /** A run of spaces between two strings separates their words. */
  lemma {:induction false} WordsAroundSpaces(a: string, n: nat, b: string)
    requires n >= 1
    ensures Words(a + seq(n, _ => ' ') + b) == Words(a) + Words(b)
    decreases n
  {
    var gap := seq(n, _ => ' ');
    var rest := seq(n - 1, _ => ' ') + b;
    assert a + gap + b == a + [' '] + rest;
    SplitAroundSeparator(a, rest, ' ');
    NonEmptyAppend(Split(a, ' '), Split(rest, ' '));
    if n > 1 {
      WordsAroundSpaces("", n - 1, b);
      assert "" + seq(n - 1, _ => ' ') + b == rest;
      assert Words("") == [];
    } else {
      assert rest == b;
    }
  }

  /** A non-empty space-free string is one word. */
  lemma OneWord(w: string)
    requires w != "" && ' ' !in w
    ensures Words(w) == [w]
  {
    JoinSplit([w], ' ');
  }
}

=== FILE: tracker.dfy ===
/**
  The tracking loop after a process is picked: every tick samples the
  process's CPU share, converts it to watts against the CPU's rated TDP,
  appends it to the history and reports the mean of the history. A sample
  whose promise rejects ends the session. Arithmetic is over exact reals.
 */
module Tracker {
  import opened Options

  /** Estimated draw in watts of a process using `cpu` percent of a CPU rated `tdp` watts. */
  function EstimatePower(cpu: real, tdp: real): (p: real)
    ensures tdp >= 0.0 && 0.0 <= cpu <= 100.0 ==> 0.0 <= p <= tdp
  {
    tdp * cpu / 100.0
  }

  /** An idle process draws nothing and a fully loading one draws the whole TDP. */
  lemma PowerAtIdleAndFullLoad(tdp: real)
    ensures EstimatePower(0.0, tdp) == 0.0
    ensures EstimatePower(100.0, tdp) == tdp
  {
  }

  /** More CPU never means less power, for a non-negative TDP. */
  lemma PowerMonotone(cpu1: real, cpu2: real, tdp: real)
    requires tdp >= 0.0 && cpu1 <= cpu2
    ensures EstimatePower(cpu1, tdp) <= EstimatePower(cpu2, tdp)
  {
    assert tdp * (cpu2 - cpu1) >= 0.0;
  }

  /** Half load on a 65 W part is 32.5 W. */
  lemma PowerExample()
    ensures EstimatePower(50.0, 65.0) == 32.5
  {
  }

  /** `reduce((a, b) => a + b, 0)`: the left-to-right sum. */
  function Sum(xs: seq<real>): real {
    if |xs| == 0 then 0.0 else Sum(xs[..|xs| - 1]) + xs[|xs| - 1]
  }

  /** The average of a non-empty history: the value that, taken `|xs|` times, gives the sum. */
  function Mean(xs: seq<real>): (m: real)
    requires |xs| > 0
    ensures m * (|xs| as real) == Sum(xs)
  {
    Sum(xs) / (|xs| as real)
  }

  /** Samples between `lo` and `hi` sum to between `|xs| * lo` and `|xs| * hi`. */
  lemma {:induction false} SumBounds(xs: seq<real>, lo: real, hi: real)
    requires forall i :: 0 <= i < |xs| ==> lo <= xs[i] <= hi
    ensures (|xs| as real) * lo <= Sum(xs) <= (|xs| as real) * hi
    decreases |xs|
  {
    if |xs| > 0 {
      SumBounds(xs[..|xs| - 1], lo, hi);
      assert (|xs| as real) * lo == ((|xs| - 1) as real) * lo + lo;
      assert (|xs| as real) * hi == ((|xs| - 1) as real) * hi + hi;
    }
  }

  /** The mean of samples between `lo` and `hi` lies between `lo` and `hi`. */
  lemma MeanBounds(xs: seq<real>, lo: real, hi: real)
    requires |xs| > 0
    requires forall i :: 0 <= i < |xs| ==> lo <= xs[i] <= hi
    ensures lo <= Mean(xs) <= hi
  {
    SumBounds(xs, lo, hi);
    var n := |xs| as real;
    assert Sum(xs) / n >= lo by {
      assert Sum(xs) >= n * lo;
    }
    assert Sum(xs) / n <= hi by {
      assert Sum(xs) <= n * hi;
    }
  }

  function MinOf(xs: seq<real>): (m: real)
    requires |xs| > 0
    ensures m in xs && forall i :: 0 <= i < |xs| ==> m <= xs[i]
  {
    if |xs| == 1 then xs[0]
    else
      var rest := MinOf(xs[1..]);
      assert forall i :: 1 <= i < |xs| ==> xs[i] == xs[1..][i - 1];
      if xs[0] <= rest then xs[0] else rest
  }

  function MaxOf(xs: seq<real>): (m: real)
    requires |xs| > 0
    ensures m in xs && forall i :: 0 <= i < |xs| ==> xs[i] <= m
  {
    if |xs| == 1 then xs[0]
    else
      var rest := MaxOf(xs[1..]);
      assert forall i :: 1 <= i < |xs| ==> xs[i] == xs[1..][i - 1];
      if xs[0] >= rest then xs[0] else rest
  }

  /** The running average lies between the smallest and the largest sample. */
  lemma MeanBetweenMinAndMax(xs: seq<real>)
    requires |xs| > 0
    ensures MinOf(xs) <= Mean(xs) <= MaxOf(xs)
  {
    MeanBounds(xs, MinOf(xs), MaxOf(xs));
  }

  /** The mean of 10, 20 and 30 is 20. */
  lemma MeanExample()
    ensures Mean([10.0, 20.0, 30.0]) == 20.0
  {
    assert [10.0, 20.0, 30.0][..2] == [10.0, 20.0];
    assert [10.0, 20.0][..1] == [10.0];
    assert [10.0][..0] == [];
  }

  /** A running total and count, the constant-space replacement for keeping the whole history. */
  datatype Accumulator = Accumulator(total: real, count: nat)

  function Push(a: Accumulator, x: real): Accumulator {
    Accumulator(a.total + x, a.count + 1)
  }

  function Accumulate(xs: seq<real>): Accumulator {
    if |xs| == 0 then Accumulator(0.0, 0) else Push(Accumulate(xs[..|xs| - 1]), xs[|xs| - 1])
  }

  /** The accumulator's total over its count is the mean of the whole history. */
  lemma {:induction false} AccumulatorGivesMean(xs: seq<real>)
    requires |xs| > 0
    ensures Accumulate(xs).count == |xs|
    ensures Accumulate(xs).total / (Accumulate(xs).count as real) == Mean(xs)
  {
    AccumulateIsSum(xs);
  }

  lemma {:induction false} AccumulateIsSum(xs: seq<real>)
    ensures Accumulate(xs) == Accumulator(Sum(xs), |xs|)
    decreases |xs|
  {
    if |xs| > 0 {
      AccumulateIsSum(xs[..|xs| - 1]);
    }
  }

  /** What one tick reports: the sampled CPU percentage, the power it means, and the average over the history so far. */
  datatype Reading = Reading(cpu: real, power: real, average: real)

  /** The readings of a run, and whether it ended on a failed sample ("Process not found."). */
  datatype Log = Log(readings: seq<Reading>, notFound: bool)

  /**
    Runs the ticks whose samples are `samples` (`None` where the sample's promise rejected)
    on top of the power `history`; a failed sample reports and ends the run.
   */
  function Track(tdp: real, history: seq<real>, samples: seq<Option<real>>): (r: Log)
    ensures |r.readings| <= |samples|
    ensures r.notFound <==> exists i :: 0 <= i < |samples| && samples[i].None?
    ensures !r.notFound ==> |r.readings| == |samples|
    decreases |samples|
  {
    if |samples| == 0 then Log([], false)
    else
      match samples[0]
      case None => Log([], true)
      case Some(cpu) =>
        var power := EstimatePower(cpu, tdp);
        var h := history + [power];
        var rest := Track(tdp, h, samples[1..]);
        Log([Reading(cpu, power, Mean(h))] + rest.readings, rest.notFound)
  }

  /** The power history after the successful samples `samples`. */
  function Powers(tdp: real, samples: seq<Option<real>>): seq<real> {
    seq(|samples|, i requires 0 <= i < |samples| =>
      match samples[i] case Some(cpu) => EstimatePower(cpu, tdp) case None => 0.0)
  }

  /** A failed sample ends the run there: one reading per earlier tick, no reading for it or any later tick. */
  lemma {:induction false} TrackStopsAtFirstFailure(tdp: real, history: seq<real>, samples: seq<Option<real>>, i: nat)
    requires i < |samples| && samples[i].None?
    requires forall j :: 0 <= j < i ==> samples[j].Some?
    ensures |Track(tdp, history, samples).readings| == i
    ensures Track(tdp, history, samples).notFound
    decreases i
  {
    if i > 0 {
      var power := EstimatePower(samples[0].value, tdp);
      TrackStopsAtFirstFailure(tdp, history + [power], samples[1..], i - 1);
    }
  }

  /** With no failed sample, every tick yields one reading and the run does not end on its own. */
  lemma {:induction false} TrackAllSucceed(tdp: real, history: seq<real>, samples: seq<Option<real>>)
    requires forall j :: 0 <= j < |samples| ==> samples[j].Some?
    ensures |Track(tdp, history, samples).readings| == |samples|
    ensures !Track(tdp, history, samples).notFound
    decreases |samples|
  {
    if |samples| > 0 {
      var power := EstimatePower(samples[0].value, tdp);
      TrackAllSucceed(tdp, history + [power], samples[1..]);
    }
  }

  /** Reading `j` reports sample `j`, the power for it, and the mean over the history including that power. */
  lemma {:induction false} TrackReading(tdp: real, history: seq<real>, samples: seq<Option<real>>, j: nat)
    requires j < |Track(tdp, history, samples).readings|
    ensures j < |samples| && forall i :: 0 <= i <= j ==> samples[i].Some?
    ensures var r := Track(tdp, history, samples).readings[j];
      && r.cpu == samples[j].value
      && r.power == EstimatePower(samples[j].value, tdp)
      && r.average == Mean(history + Powers(tdp, samples[..j + 1]))
    decreases j
  {
    var power := EstimatePower(samples[0].value, tdp);
    if j > 0 {
      var tail := samples[1..];
      TrackReading(tdp, history + [power], tail, j - 1);
      assert forall i :: 1 <= i <= j ==> samples[i] == tail[i - 1];
      assert history + [power] + Powers(tdp, tail[..j]) == history + Powers(tdp, samples[..j + 1]);
    } else {
      assert Powers(tdp, samples[..1]) == [power];
    }
  }
}
